=== FILE: README.md ===
# mandelbrot-webgl core in Dafny

A model of the core of a small WebGL Mandelbrot viewer. It covers three parts:

- **`AffineMath`** (`affine_math.dfy`) is the 2-D vector and the column-major 3×3 matrix of `src/lib/math.ts`. It covers the component-wise vector operations, the matrix product as a loop, the matrix–point product, the closed-form inverse and the translation/scaling/transformation constructors. Numbers are reals.
- **`ShaderCanvasContext`** (`shader_canvas_context.dfy`) is the shader runtime of `src/lib/shader-canvas-context.ts`:
  - `compileShader`;
  - the `ShaderProgram` constructor, `setUniforms` and `destroy`;
  - the `ShaderCanvasContext` constructor, `setShader`, `render`, `updateUniforms` and `destroy`.

  Each operation is a function from an abstract WebGL state to a new state. An exception the source throws on an input the model represents is an `Err` here, returned with the state the context is left in. This includes the TypeError WebGL raises when a matrix uniform is given no array.
- **`MandelbrotShader`** (`mandelbrot_shader.dfy`) covers:
  - the interface the two GLSL sources declare and the `UNIFORMS` schema of `src/lib/mandelbrot-shader.ts`;
  - `createMandelbrotShader`;
  - the uniform values `createUniforms` in `src/lib/viewer-state.svelte.ts` hands the program every frame.

Two supporting modules:

- **`WebGl`** (`webgl.dfy`) is the abstract WebGL context. It records:
  - the live object names, with a counter that hands out fresh ones;
  - the current program and the `ARRAY_BUFFER` binding;
  - the contents of each buffer;
  - the sequence of state-changing calls issued.

  A `Driver` value answers the queries the runtime makes:
  - whether a shader object can be created;
  - the compile or link log;
  - an attribute location;
  - whether a uniform is active.

  Queries change nothing and are not recorded.
- **`Wrappers`** (`wrappers.dfy`) provides `Option` and `Result`.

A JavaScript object used as a dictionary is a `Record`: its (name, value) pairs in insertion order, each name once. `Object.entries` visits names that are not array indices in this order, and every GLSL identifier is such a name.

## Behaviour of the code worth knowing

- **Only affine matrices are inverted.** `Mat3.inv` reads only the top two rows and always returns a bottom row of (0, 0, 1). It is an inverse only for affine matrices, whose bottom row is (0, 0, 1). `AffineMath.InvOnlyInvertsAffine` exhibits a non-affine matrix, together with its two-sided inverse, whose product with its `inv` is not the identity.
- **Zero determinant.** `Mat3.inv` divides by the determinant without checking it. For a zero determinant the six computed entries are infinite or NaN; entries 2, 5 and 8 are the literals 0, 0 and 1. The model requires a nonzero determinant (see "Left out").
- **Compile-failure leak.** When the vertex stage compiles and the fragment stage does not, the `ShaderProgram` constructor throws without deleting the vertex shader it compiled first. `ShaderCanvasContext.FragmentFailureLeaksVertexShader` states this.
- **Matrix uniforms need an array.** `setUniforms` passes `value.m` to `uniformMatrix*fv`. A value without `m` makes WebGL throw a TypeError, after the writes for the entries before it. `ShaderCanvasContext.MatrixWithoutArrayRejected` states this.

## Model

| member | source | states |
|---|---|---|
| AffineMath.AddLaws | src/lib/math.ts:13-15 | vector addition is commutative and associative, with (0,0) as its unit |
| AffineMath.MulLaws | src/lib/math.ts:21-23 | component-wise multiplication is commutative and associative, (1,1) is its unit and (0,0) absorbs |
| AffineMath.Vec2.Sub | src/lib/math.ts:17-19 | subtracting `b` undoes adding `b`: `a.sub(b).add(b) == a` |
| AffineMath.Vec2.Div | src/lib/math.ts:25-27 | for nonzero divisor components, component-wise division is undone by component-wise multiplication |
| AffineMath.Vec2.Scale | src/lib/math.ts:29-31 | scaling by `s` is component-wise multiplication by `(s, s)` and multiplies the squared length by `s²` |
| AffineMath.Vec2.LengthSqr | src/lib/math.ts:37-39 | the squared length is never negative |
| AffineMath.AddSubRoundTrip | src/lib/math.ts:13-19 | `a.add(b).sub(b) == a` for all vectors |
| AffineMath.MulDivRoundTrip | src/lib/math.ts:21-27 | `a.mul(b).div(b) == a` whenever both components of `b` are nonzero |
| AffineMath.VectorExamples | src/lib/math.ts:13-39 | (1,2)+(3,4) = (4,6), (4,6)−(3,4) = (1,2), (2,3)·2 = (4,6), lengthSqr(3,4) = 25 |
| AffineMath.MulMat | src/lib/math.ts:54-72 | the triple loop over column-major storage computes entry (row, col) = Σₖ this(row,k)·other(k,col), the standard product `this·other` |
| AffineMath.MulAt | src/lib/math.ts:57-69 | each entry of the product is the dot product of a row of the left factor with a column of the right factor |
| AffineMath.MulIdentity | src/lib/math.ts:44 | `IDENTITY` is a unit of the product on both sides |
| AffineMath.IdentityFixesPoints | src/lib/math.ts:44 | `IDENTITY` is affine, leaves every point where it is, and is its own inverse |
| AffineMath.MulAssociative | src/lib/math.ts:54-72 | the matrix product is associative |
| AffineMath.Mul | src/lib/math.ts:42-72 | the product of two matrices with bottom row (0,0,1) has bottom row (0,0,1), so the affine matrices the class is limited to are closed under it |
| AffineMath.MulVec | src/lib/math.ts:74-78 | transforming a point `v` gives the translation column of the matrix multiplied by the translation by `v`: the point is treated as the homogeneous column (x, y, 1) |
| AffineMath.MulVecComposes | src/lib/math.ts:74-78 | transforming a point by `a·b` is transforming it by `b`, then by `a`, when `b` is affine |
| AffineMath.Inv | src/lib/math.ts:80-99 | the inverse always has bottom row (0,0,1) |
| AffineMath.InvIsInverse | src/lib/math.ts:80-99 | for an affine matrix with nonzero determinant, `M·inv(M)` and `inv(M)·M` are both the identity |
| AffineMath.InvIgnoresBottomRow | src/lib/math.ts:91-98 | the inverse never reads entries 2, 5 and 8: matrices that agree elsewhere have the same inverse |
| AffineMath.InvOnlyInvertsAffine | src/lib/math.ts:91-98 | a matrix with a non-affine bottom row and an explicit two-sided inverse is not inverted by `inv` |
| AffineMath.MakeTranslation | src/lib/math.ts:102-104 | the translation matrix is affine and moves every point by the offset |
| AffineMath.MakeScaling | src/lib/math.ts:106-108 | the scaling matrix is affine and scales every point by the factor |
| AffineMath.MakeTransformation | src/lib/math.ts:110-112 | translation times scaling is `[s,0,0, 0,s,0, ox,oy,1]`, is affine, and maps `v` to `s·v + o` |
| AffineMath.TransformationExample | src/lib/math.ts:110-112 | offset (2,−1), scale 3 maps (1,1) to (5,2) |
| ShaderCanvasContext.FirstFailing | src/lib/shader-canvas-context.ts:110-115 | a loop that stops at the first entry failing a test stops at an index whose predecessors all pass and which itself fails |
| ShaderCanvasContext.Compile | src/lib/shader-canvas-context.ts:164-179 | compilation succeeds exactly when a shader can be created and compiles; success hands out a fresh name; failure leaves no object of its own live and reports the creation error or the driver's log |
| ShaderCanvasContext.Destroy | src/lib/shader-canvas-context.ts:156-161 | the program and both shaders are deleted, in that order, and nothing else changes |
| ShaderCanvasContext.Link | src/lib/shader-canvas-context.ts:94-107 | a fresh program object is created, both shaders attached and linked, and the attribute location stored as the driver reports it, unchecked |
| ShaderCanvasContext.ResolveUniforms | src/lib/shader-canvas-context.ts:109-117 | if every name is active, the table gains exactly the schema's names, each at a location of this program with its declared type; otherwise the result is the destroy of the program and an error naming the first inactive uniform |
| ShaderCanvasContext.FirstInactiveIsReported | src/lib/shader-canvas-context.ts:110-115 | the uniform reported missing is inactive and comes no later than any inactive one |
| ShaderCanvasContext.NewShaderProgram | src/lib/shader-canvas-context.ts:89-118 | a constructed program owns three fresh objects, which are exactly what construction adds to the live set |
| ShaderCanvasContext.ConstructionSucceeds | src/lib/shader-canvas-context.ts:89-118 | construction succeeds if and only if both stages compile, they link and every schema name is active; the table then has exactly the schema's names and types |
| ShaderCanvasContext.VertexFailureReleasesAll | src/lib/shader-canvas-context.ts:164-176 | a vertex stage that cannot be created or compiled fails construction with that error and leaves nothing live |
| ShaderCanvasContext.FragmentFailureLeaksVertexShader | src/lib/shader-canvas-context.ts:91-92 | when only the fragment stage fails, the vertex shader compiled before it stays live |
| ShaderCanvasContext.LinkFailureReleasesAll | src/lib/shader-canvas-context.ts:99-103 | a failed link deletes the program and both shaders, then fails with the link log |
| ShaderCanvasContext.MissingUniformReleasesAll | src/lib/shader-canvas-context.ts:110-115 | a schema name without an active uniform deletes all three objects and fails naming the first such uniform |
| ShaderCanvasContext.ConstructThenDestroyReleasesAll | src/lib/shader-canvas-context.ts:156-161 | destroying a freshly constructed program returns the live set to what it was before construction |
| ShaderCanvasContext.UndeclaredUniformRejected | src/lib/shader-canvas-context.ts:111-115 | with a driver that only reports declared uniforms, a schema naming an undeclared uniform cannot be constructed |
| ShaderCanvasContext.Write | src/lib/shader-canvas-context.ts:127-152 | the write for a value is the call for the uniform's declared type, at its location, matrices untransposed, carrying exactly the value's scalars when the value has the expected shape, and a matrix's array whatever its length |
| ShaderCanvasContext.WriteUniforms | src/lib/shader-canvas-context.ts:122-153 | the writes for the entries before the first one that cannot be written are issued in order; it then fails naming that entry, as an unknown uniform or as a matrix uniform without an array |
| ShaderCanvasContext.SetUniforms | src/lib/shader-canvas-context.ts:120-153 | the program is made current first; it succeeds if and only if every name is in the table and every matrix uniform is given an array; on failure the earlier writes have been issued |
| ShaderCanvasContext.MatrixWithoutArrayRejected | src/lib/shader-canvas-context.ts:143-151 | a number or vector given to a matrix uniform fails the call with nothing written after the program is made current |
| ShaderCanvasContext.NewCanvasContext | src/lib/shader-canvas-context.ts:23-36 | without a WebGL context it fails; otherwise one fresh buffer is created, bound and filled with the quad's eight coordinates, and no program is installed |
| ShaderCanvasContext.SetShader | src/lib/shader-canvas-context.ts:38-43 | the previous program, if any, is destroyed before the new one is installed; with none, nothing is issued |
| ShaderCanvasContext.ReplacingReleasesPreviousOnce | src/lib/shader-canvas-context.ts:38-43 | replacing a program deletes it and each of its two shaders exactly once, and keeps the new program's objects live |
| ShaderCanvasContext.ReinstallingLeavesDeletedProgram | src/lib/shader-canvas-context.ts:38-43 | installing the installed program again leaves it installed with its objects deleted |
| ShaderCanvasContext.Render | src/lib/shader-canvas-context.ts:45-66 | viewport and clear colour always; with a program: use it, bind the quad buffer, point the attribute at 2 floats per vertex, enable it, and draw a 4-vertex triangle strip |
| ShaderCanvasContext.RenderDrawsOnlyWithProgram | src/lib/shader-canvas-context.ts:45-66 | a render issues no draw without a program; with one it issues exactly one draw, a 4-vertex triangle strip, as its last call |
| ShaderCanvasContext.RenderCoversQuad | src/lib/shader-canvas-context.ts:52-65 | with the quad in the buffer, the draw's vertex count times the attribute's components per vertex equals the number of floats in the bound buffer |
| ShaderCanvasContext.UpdateUniforms | src/lib/shader-canvas-context.ts:68-70 | without a program nothing happens and it succeeds; with one it succeeds exactly when every entry can be written: its name is known and a matrix uniform gets an array |
| ShaderCanvasContext.DestroyContext | src/lib/shader-canvas-context.ts:72-76 | the installed program's objects and the quad buffer are deleted, the buffer last, and the buffer is no longer bound |
| ShaderCanvasContext.LifecycleReleasesEverything | src/lib/shader-canvas-context.ts:72-76 | create a context, construct and install a program, render, destroy: every object created is deleted |
| MandelbrotShader.UniformsTypeTheInterface | src/lib/mandelbrot-shader.ts:63-73 | `UNIFORMS` names exactly the three fields of `MandelbrotUniforms`, and each field's TypeScript type has the value shape its declared uniform type expects |
| MandelbrotShader.SchemaMatchesSources | src/lib/mandelbrot-shader.ts:69-73 | every schema uniform is declared in one of the sources with the matching GLSL type, the schema names exactly the declared uniforms, and the vertex source declares the runtime's position attribute |
| MandelbrotShader.CreateMandelbrotShader | src/lib/mandelbrot-shader.ts:75-78 | the program is built if and only if the sources compile and link and the three uniforms are active; its table then maps uScreenSize to a vec2, uIterations to an int and uViewMat to a mat3 |
| MandelbrotShader.FaithfulDriverBuilds | src/lib/mandelbrot-shader.ts:75-78 | a driver that reports exactly the declared uniforms always builds the program |
| MandelbrotShader.ViewerUniformsAsWritten | src/lib/viewer-state.svelte.ts:30-37 | the per-frame values name the schema's uniforms plus `uInitialZ` |
| MandelbrotShader.ViewerUniformsAsWrittenRejected | src/lib/shader-canvas-context.ts:122-126 | handing those values to the Mandelbrot program writes uScreenSize and uIterations, then fails on `uInitialZ`; uViewMat is never written |
| MandelbrotShader.AsWrittenStopsAtInitialZ | src/lib/shader-canvas-context.ts:122-134 | of the values as written, the screen size is written as a vec2 and the iteration count as an int, and the third entry, `uInitialZ`, is the first that cannot be written |
| MandelbrotShader.ViewerUniforms | src/lib/viewer-state.svelte.ts:30-37 | the corrected values name exactly the schema's uniforms, in order, each of its declared shape |
| MandelbrotShader.ViewerUniformsAccepted | src/lib/mandelbrot-shader.ts:69-73 | the corrected values are accepted and produce one write per uniform, in schema order, with the view matrix untransposed |
| MandelbrotShader.IntendedAllWritable | src/lib/shader-canvas-context.ts:122-148 | every corrected value can be written, with the call for its schema type: a vec2, an int and an untransposed mat3 |
| MandelbrotShader.InstalledProgramDrawsQuad | src/lib/shader-canvas-context.ts:45-70 | with the Mandelbrot program installed and the quad in the buffer, updating the corrected uniforms succeeds and the following render draws the quad with that program current |
| MandelbrotShader.FrameDrawsQuad | src/lib/shader-canvas-context.ts:45-66 | under a faithful driver the program is built, and a whole frame on a fresh context ends by drawing the quad buffer's four vertices with the Mandelbrot program current |

## Findings

| source | as written | input that shows it | evidently intended | confidence | as-written member | corrected member |
|---|---|---|---|---|---|---|
| src/lib/viewer-state.svelte.ts:34 | `createUniforms` includes `uInitialZ`, which neither `UNIFORMS` nor either shader declares | any viewer state: `setUniforms` fails at its third entry, so `uViewMat` is never written and the view cannot change | `createUniforms` returns only `uScreenSize`, `uIterations` and `uViewMat` | high that `setUniforms` rejects the values as written; not executed | MandelbrotShader.ViewerUniformsAsWrittenRejected | MandelbrotShader.ViewerUniformsAccepted |

## Left out

- AffineMath.Inv: requires a nonzero determinant. For a zero determinant the source computes `1/det` and returns a matrix whose six computed entries are infinite or NaN. IEEE-754 special values are not modelled.
- AffineMath.Vec2.Div: requires both divisor components to be nonzero, for the same reason.
- `Vec2.length` (src/lib/math.ts:33-35) calls itself without end; it has no terminating model and is not replaced by a square root. This is a defect of the source.
- All arithmetic is on reals. Float64 rounding in `math.ts`, `Math.pow` and Float32 rounding of buffer data and uniform values are not modelled.
- Two things are represented only by their declared interface: the GLSL sources, as attribute and uniform names with GLSL type keywords, and the shaders' statements, including the Mandelbrot iteration itself.
- WebGL's conversion of scalar uniform arguments is not modelled. The trace records them as passed: a number, or "not a number" for a missing field. Truncation of `uniform1i` arguments is not modelled either. A matrix array of the wrong length is passed on as is; the `INVALID_VALUE` WebGL records for it is only visible through `getError`, which is not modelled.
- ShaderCanvasContext.SetUniforms: a `Value` is always a number, a component list or a matrix with an array `m`, and the value map is always a map. So the source's TypeErrors on other inputs are not represented. These are `null`/`undefined` for a vector uniform, where reading `value.x` throws (src/lib/shader-canvas-context.ts:135-141), and `null`/`undefined` for a matrix uniform, where reading `value.m` throws (lines 144-150). They also include an `m` that is not array-like, which WebGL's argument conversion rejects, and a `null`/`undefined` value map, which makes `Object.entries` throw (line 122). A `FLOAT` or `INT` uniform given `null`/`undefined` does not throw in the source (WebGL receives 0 or NaN); that case is not represented either.
- Deleting an object that is still attached or current only removes its name from the live set. WebGL's deferred deletion is not modelled.
- Query calls (status, info log and location lookups) are answered by the `Driver` and not recorded in the trace.
- Name lookups that hit `Object.prototype` members (a uniform value named `toString`, for example) are not modelled. A `Record` holds only its own entries.
- The canvas element is not modelled. Its width and height are parameters of `Render`. The result of `getContext("webgl")` is the parameter of `NewCanvasContext`.
- `console.debug` logging is not modelled.
- Parts of `viewer-state.svelte.ts` other than the key set of `createUniforms` are not modelled: the reactive `$state`/`$derived`/`$effect` plumbing and the `log10` iteration rule.
- `Vec2.ZERO`, the mutable static `IDENTITY` and the `Mat3` constructor's aliasing of its argument are not modelled. Values here are immutable.

=== FILE: affine_math.dfy ===
/**
 * Plane vectors and 3×3 matrices restricted to affine transforms, as used to
 * build the fractal viewer's view transform. The source computes in IEEE
 * doubles; this model computes in exact reals, so every identity below is an
 * algebraic fact rather than an approximation.
 */
module AffineMath {

  /** A vector in the plane. Values are immutable: every operation returns a new one. */
  datatype Vec2 = Vec2(x: real, y: real)
  {
    /** Component-wise sum. */
    function Add(other: Vec2): Vec2
    {
      Vec2(x + other.x, y + other.y)
    }

    /** Component-wise difference; it undoes `Add`. */
    function Sub(other: Vec2): (r: Vec2)
      ensures r.Add(other) == this
    {
      Vec2(x - other.x, y - other.y)
    }

    /** Component-wise product. */
    function Mul(other: Vec2): Vec2
    {
      Vec2(x * other.x, y * other.y)
    }

    /**
     * Component-wise quotient; it undoes `Mul`. The source divides doubles and
     * produces an infinity or NaN for a zero divisor; over the reals a zero
     * divisor is excluded instead.
     */
    function Div(other: Vec2): (r: Vec2)
      requires other.x != 0.0 && other.y != 0.0
      ensures r.Mul(other) == this
    {
      Vec2(x / other.x, y / other.y)
    }

    /** Multiplication by a scalar: the component-wise product with (s, s). */
    function Scale(s: real): (r: Vec2)
      ensures r == Mul(Vec2(s, s))
      ensures r.LengthSqr() == s * s * LengthSqr()
    {
      Vec2(x * s, y * s)
    }

    /** Squared Euclidean length; it is never negative. */
    function LengthSqr(): (r: real)
      ensures r >= 0.0
    {
      SumOfSquares(x, y);
      x * x + y * y
    }
  }

  lemma SumOfSquares(x: real, y: real)
    ensures x * x + y * y >= 0.0
  {
    assert x * x >= 0.0 && y * y >= 0.0;
  }

  /** Vector addition is commutative and associative, with (0, 0) as its unit. */
  lemma AddLaws(a: Vec2, b: Vec2, c: Vec2)
    ensures a.Add(b) == b.Add(a)
    ensures a.Add(b).Add(c) == a.Add(b.Add(c))
    ensures a.Add(Vec2(0.0, 0.0)) == a
  {
  }

  /** Component-wise multiplication is commutative and associative, with (1, 1) as its unit and (0, 0) absorbing. */
  lemma MulLaws(a: Vec2, b: Vec2, c: Vec2)
    ensures a.Mul(b) == b.Mul(a)
    ensures a.Mul(b).Mul(c) == a.Mul(b.Mul(c))
    ensures a.Mul(Vec2(1.0, 1.0)) == a
    ensures a.Mul(Vec2(0.0, 0.0)) == Vec2(0.0, 0.0)
  {
  }

  /** Adding a vector and then subtracting it again gives back the start. */
  lemma AddSubRoundTrip(a: Vec2, b: Vec2)
    ensures a.Add(b).Sub(b) == a
  {
  }

  /** Multiplying by a vector with nonzero components and then dividing by it gives back the start. */
  lemma MulDivRoundTrip(a: Vec2, b: Vec2)
    requires b.x != 0.0 && b.y != 0.0
    ensures a.Mul(b).Div(b) == a
  {
  }

  /** The worked values of the vector operations. */
  lemma VectorExamples()
    ensures Vec2(1.0, 2.0).Add(Vec2(3.0, 4.0)) == Vec2(4.0, 6.0)
    ensures Vec2(4.0, 6.0).Sub(Vec2(3.0, 4.0)) == Vec2(1.0, 2.0)
    ensures Vec2(2.0, 3.0).Scale(2.0) == Vec2(4.0, 6.0)
    ensures Vec2(3.0, 4.0).LengthSqr() == 25.0
  {
  }

  /**
   * A 3×3 matrix as nine entries in column-major order: the entry in row
   * `row` and column `col` sits at index `col * 3 + row`.
   */
  type Mat3 = m: seq<real> | |m| == 9 witness [1.0, 0.0, 0.0, 0.0, 1.0, 0.0, 0.0, 0.0, 1.0]

  const Identity: Mat3 := [1.0, 0.0, 0.0, 0.0, 1.0, 0.0, 0.0, 0.0, 1.0]

  /** The entry in row `row` and column `col`. */
  function At(a: Mat3, row: nat, col: nat): real
    requires row < 3 && col < 3
  {
    a[col * 3 + row]
  }

  /** The bottom row is (0, 0, 1): the matrix is an affine transform of the plane. */
  predicate IsAffine(a: Mat3)
  {
    At(a, 2, 0) == 0.0 && At(a, 2, 1) == 0.0 && At(a, 2, 2) == 1.0
  }

  /** Row `row` of `a` times column `col` of `b`. */
  function Dot(a: Mat3, b: Mat3, row: nat, col: nat): real
    requires row < 3 && col < 3
  {
    At(a, row, 0) * At(b, 0, col) + At(a, row, 1) * At(b, 1, col) + At(a, row, 2) * At(b, 2, col)
  }

  /** The first `k` terms of `Dot`, summed in the order the source's inner loop adds them. */
  function PartialDot(a: Mat3, b: Mat3, row: nat, col: nat, k: nat): real
    requires row < 3 && col < 3 && k <= 3
  {
    if k == 0 then 0.0 else PartialDot(a, b, row, col, k - 1) + At(a, row, k - 1) * At(b, k - 1, col)
  }

  lemma PartialDotComplete(a: Mat3, b: Mat3, row: nat, col: nat)
    requires row < 3 && col < 3
    ensures PartialDot(a, b, row, col, 3) == Dot(a, b, row, col)
  {
    assert PartialDot(a, b, row, col, 1) == At(a, row, 0) * At(b, 0, col);
    assert PartialDot(a, b, row, col, 2) == PartialDot(a, b, row, col, 1) + At(a, row, 1) * At(b, 1, col);
    assert PartialDot(a, b, row, col, 3) == PartialDot(a, b, row, col, 2) + At(a, row, 2) * At(b, 2, col);
  }

  /** The matrix product a·b, laid out column by column; it keeps affine matrices affine. */
  function Mul(a: Mat3, b: Mat3): (r: Mat3)
    ensures IsAffine(a) && IsAffine(b) ==> IsAffine(r)
  {
    [ Dot(a, b, 0, 0), Dot(a, b, 1, 0), Dot(a, b, 2, 0),
      Dot(a, b, 0, 1), Dot(a, b, 1, 1), Dot(a, b, 2, 1),
      Dot(a, b, 0, 2), Dot(a, b, 1, 2), Dot(a, b, 2, 2) ]
  }

  /** Two matrices that agree entry by entry are equal. */
  lemma EqualByEntries(p: Mat3, q: Mat3)
    requires forall row: nat, col: nat :: row < 3 && col < 3 ==> At(p, row, col) == At(q, row, col)
    ensures p == q
  {
    assert At(p, 0, 0) == At(q, 0, 0) && At(p, 1, 0) == At(q, 1, 0) && At(p, 2, 0) == At(q, 2, 0);
    assert At(p, 0, 1) == At(q, 0, 1) && At(p, 1, 1) == At(q, 1, 1) && At(p, 2, 1) == At(q, 2, 1);
    assert At(p, 0, 2) == At(q, 0, 2) && At(p, 1, 2) == At(q, 1, 2) && At(p, 2, 2) == At(q, 2, 2);
    assert p == [p[0], p[1], p[2], p[3], p[4], p[5], p[6], p[7], p[8]];
    assert q == [q[0], q[1], q[2], q[3], q[4], q[5], q[6], q[7], q[8]];
  }

  /**
   * The source's triple loop: for each column, for each row, it sums the
   * three products `a[k * 3 + row] * b[col * 3 + k]` and stores the sum at
   * `col * 3 + row`. The result is the standard product a·b.
   */
  method MulMat(a: Mat3, b: Mat3) returns (r: Mat3)
    ensures forall row: nat, col: nat :: row < 3 && col < 3 ==> At(r, row, col) == Dot(a, b, row, col)
    ensures r == Mul(a, b)
  {
    var result: Mat3 := [0.0, 0.0, 0.0, 0.0, 0.0, 0.0, 0.0, 0.0, 0.0];
    var col := 0;
    while col < 3
      invariant 0 <= col <= 3
      invariant forall c: nat, rw: nat :: c < col && rw < 3 ==> At(result, rw, c) == Dot(a, b, rw, c)
    {
      var row := 0;
      while row < 3
        invariant 0 <= row <= 3
        invariant forall c: nat, rw: nat :: c < col && rw < 3 ==> At(result, rw, c) == Dot(a, b, rw, c)
        invariant forall rw: nat :: rw < row ==> At(result, rw, col) == Dot(a, b, rw, col)
      {
        var sum := 0.0;
        var k := 0;
        while k < 3
          invariant 0 <= k <= 3
          invariant sum == PartialDot(a, b, row, col, k)
        {
          assert PartialDot(a, b, row, col, k + 1) == sum + At(a, row, k) * At(b, k, col);
          sum := sum + a[k * 3 + row] * b[col * 3 + k];
          k := k + 1;
        }
        PartialDotComplete(a, b, row, col);
        result := result[col * 3 + row := sum];
        row := row + 1;
      }
      col := col + 1;
    }
    r := result;
    MulAt(a, b);
    EqualByEntries(r, Mul(a, b));
  }

  /** Entry (row, col) of `Mul(a, b)` is row `row` of `a` times column `col` of `b`. */
  lemma MulAt(a: Mat3, b: Mat3)
    ensures forall row: nat, col: nat :: row < 3 && col < 3 ==> At(Mul(a, b), row, col) == Dot(a, b, row, col)
  {
  }

  /** The identity matrix is a unit for the product on both sides. */
  lemma MulIdentity(a: Mat3)
    ensures Mul(Identity, a) == a
    ensures Mul(a, Identity) == a
  {
    EqualByEntries(Mul(Identity, a), a);
    EqualByEntries(Mul(a, Identity), a);
  }

  /** `IDENTITY` is affine, leaves every point where it is, and is its own inverse. */
  lemma IdentityFixesPoints(v: Vec2)
    ensures IsAffine(Identity)
    ensures MulVec(Identity, v) == v
    ensures Det(Identity) == 1.0 && Inv(Identity) == Identity
  {
  }

  /** The product is associative. */
  lemma MulAssociative(a: Mat3, b: Mat3, c: Mat3)
    ensures Mul(Mul(a, b), c) == Mul(a, Mul(b, c))
  {
    forall row: nat, col: nat | row < 3 && col < 3
      ensures At(Mul(Mul(a, b), c), row, col) == At(Mul(a, Mul(b, c)), row, col)
    {
      DotAssociative(a, b, c, row, col);
    }
    EqualByEntries(Mul(Mul(a, b), c), Mul(a, Mul(b, c)));
  }

  lemma DotAssociative(a: Mat3, b: Mat3, c: Mat3, row: nat, col: nat)
    requires row < 3 && col < 3
    ensures Dot(Mul(a, b), c, row, col) == Dot(a, Mul(b, c), row, col)
  {
    DotMulLeft(a, b, c, row, col);
    DotMulRight(a, b, c, row, col);
    DotRegroup(a, b, c, row, col);
  }

  lemma DotRegroup(a: Mat3, b: Mat3, c: Mat3, row: nat, col: nat)
    requires row < 3 && col < 3
    ensures Dot(a, b, row, 0) * At(c, 0, col) + Dot(a, b, row, 1) * At(c, 1, col) + Dot(a, b, row, 2) * At(c, 2, col)
         == At(a, row, 0) * Dot(b, c, 0, col) + At(a, row, 1) * Dot(b, c, 1, col) + At(a, row, 2) * Dot(b, c, 2, col)
  {
    SumOfProductsRegroups(
      At(a, row, 0), At(a, row, 1), At(a, row, 2),
      At(b, 0, 0), At(b, 0, 1), At(b, 0, 2),
      At(b, 1, 0), At(b, 1, 1), At(b, 1, 2),
      At(b, 2, 0), At(b, 2, 1), At(b, 2, 2),
      At(c, 0, col), At(c, 1, col), At(c, 2, col),
      Dot(a, b, row, 0), Dot(a, b, row, 1), Dot(a, b, row, 2),
      Dot(b, c, 0, col), Dot(b, c, 1, col), Dot(b, c, 2, col));
  }

  lemma DotMulLeft(a: Mat3, b: Mat3, c: Mat3, row: nat, col: nat)
    requires row < 3 && col < 3
    ensures Dot(Mul(a, b), c, row, col)
         == Dot(a, b, row, 0) * At(c, 0, col) + Dot(a, b, row, 1) * At(c, 1, col) + Dot(a, b, row, 2) * At(c, 2, col)
  {
  }

  lemma DotMulRight(a: Mat3, b: Mat3, c: Mat3, row: nat, col: nat)
    requires row < 3 && col < 3
    ensures Dot(a, Mul(b, c), row, col)
         == At(a, row, 0) * Dot(b, c, 0, col) + At(a, row, 1) * Dot(b, c, 1, col) + At(a, row, 2) * Dot(b, c, 2, col)
  {
  }

  /** (u·B)·w == u·(B·w) for a row u, a 3×3 block B and a column w, where d = u·B and e = B·w. */
  lemma SumOfProductsRegroups(u0: real, u1: real, u2: real,
                              b00: real, b01: real, b02: real,
                              b10: real, b11: real, b12: real,
                              b20: real, b21: real, b22: real,
                              w0: real, w1: real, w2: real,
                              d0: real, d1: real, d2: real,
                              e0: real, e1: real, e2: real)
    requires d0 == u0 * b00 + u1 * b10 + u2 * b20
    requires d1 == u0 * b01 + u1 * b11 + u2 * b21
    requires d2 == u0 * b02 + u1 * b12 + u2 * b22
    requires e0 == b00 * w0 + b01 * w1 + b02 * w2
    requires e1 == b10 * w0 + b11 * w1 + b12 * w2
    requires e2 == b20 * w0 + b21 * w1 + b22 * w2
    ensures d0 * w0 + d1 * w1 + d2 * w2 == u0 * e0 + u1 * e1 + u2 * e2
  {
    assert d0 * w0 == u0 * b00 * w0 + u1 * b10 * w0 + u2 * b20 * w0;
    assert d1 * w1 == u0 * b01 * w1 + u1 * b11 * w1 + u2 * b21 * w1;
    assert d2 * w2 == u0 * b02 * w2 + u1 * b12 * w2 + u2 * b22 * w2;
    assert u0 * e0 == u0 * b00 * w0 + u0 * b01 * w1 + u0 * b02 * w2;
    assert u1 * e1 == u1 * b10 * w0 + u1 * b11 * w1 + u1 * b12 * w2;
    assert u2 * e2 == u2 * b20 * w0 + u2 * b21 * w1 + u2 * b22 * w2;
  }

  /** Applies `a` to the point `v`, taking the homogeneous coordinate of `v` to be 1. */
  function MulVec(a: Mat3, v: Vec2): (r: Vec2)
    ensures var h := Mul(a, [1.0, 0.0, 0.0, 0.0, 1.0, 0.0, v.x, v.y, 1.0]);
            r == Vec2(At(h, 0, 2), At(h, 1, 2))
  {
    Vec2(v.x * a[0] + v.y * a[3] + a[6], v.x * a[1] + v.y * a[4] + a[7])
  }

  /** Applying a product applies its right factor first, as long as that factor is affine. */
  lemma MulVecComposes(a: Mat3, b: Mat3, v: Vec2)
    requires IsAffine(b)
    ensures MulVec(Mul(a, b), v) == MulVec(a, MulVec(b, v))
  {
    var m := Mul(a, b);
    assert m[0] == a[0] * b[0] + a[3] * b[1] && m[3] == a[0] * b[3] + a[3] * b[4] && m[6] == a[0] * b[6] + a[3] * b[7] + a[6];
    assert m[1] == a[1] * b[0] + a[4] * b[1] && m[4] == a[1] * b[3] + a[4] * b[4] && m[7] == a[1] * b[6] + a[4] * b[7] + a[7];
    var u := MulVec(b, v);
    assert u.x == v.x * b[0] + v.y * b[3] + b[6] && u.y == v.x * b[1] + v.y * b[4] + b[7];
    ApplyComposed(a[0], a[3], a[6], b[0], b[1], b[3], b[4], b[6], b[7], v.x, v.y);
    ApplyComposed(a[1], a[4], a[7], b[0], b[1], b[3], b[4], b[6], b[7], v.x, v.y);
    assert MulVec(m, v) == Vec2(v.x * m[0] + v.y * m[3] + m[6], v.x * m[1] + v.y * m[4] + m[7]);
    assert MulVec(a, u) == Vec2(u.x * a[0] + u.y * a[3] + a[6], u.x * a[1] + u.y * a[4] + a[7]);
  }

  /** One coordinate of `MulVecComposes`, as plain arithmetic. */
  lemma ApplyComposed(a0: real, a3: real, a6: real, b0: real, b1: real, b3: real, b4: real, b6: real, b7: real,
                      x: real, y: real)
    ensures x * (a0 * b0 + a3 * b1) + y * (a0 * b3 + a3 * b4) + (a0 * b6 + a3 * b7 + a6)
         == (x * b0 + y * b3 + b6) * a0 + (x * b1 + y * b4 + b7) * a3 + a6
  {
  }

  /** The determinant of the top-left 2×2 block, as the source computes it. */
  function Det(a: Mat3): real
  {
    a[0] * a[4] + a[3] * -a[1]
  }

  /**
   * The source's closed-form inverse. It reads only the top two rows and
   * always returns a matrix with bottom row (0, 0, 1). The source evaluates
   * `1/det` in doubles, so when det is zero the six computed entries are
   * not finite; here a zero determinant is excluded.
   */
  function Inv(a: Mat3): (r: Mat3)
    requires Det(a) != 0.0
    ensures IsAffine(r)
  {
    var di := 1.0 / Det(a);
    [ di * a[4], -di * a[1], 0.0,
      -di * a[3], di * a[0], 0.0,
      di * (a[3] * a[7] - a[6] * a[4]), -di * (a[0] * a[7] - a[6] * a[1]), 1.0 ]
  }

  /** For an affine matrix with nonzero determinant, `Inv` is a two-sided inverse. */
  lemma InvIsInverse(a: Mat3)
    requires IsAffine(a) && Det(a) != 0.0
    ensures Mul(a, Inv(a)) == Identity
    ensures Mul(Inv(a), a) == Identity
  {
    var d := Det(a);
    var di := 1.0 / d;
    assert di * d == 1.0;
    EqualByEntries(Mul(a, Inv(a)), Identity);
    EqualByEntries(Mul(Inv(a), a), Identity);
  }

  /** `Inv` never reads the bottom row: matrices that share their top two rows share their inverse. */
  lemma InvIgnoresBottomRow(a: Mat3, b: Mat3)
    requires forall col: nat :: col < 3 ==> At(a, 0, col) == At(b, 0, col) && At(a, 1, col) == At(b, 1, col)
    requires Det(a) != 0.0
    ensures Det(b) != 0.0 && Inv(a) == Inv(b)
  {
    assert At(a, 0, 0) == At(b, 0, 0) && At(a, 0, 1) == At(b, 0, 1) && At(a, 0, 2) == At(b, 0, 2);
    assert At(a, 1, 0) == At(b, 1, 0) && At(a, 1, 1) == At(b, 1, 1) && At(a, 1, 2) == At(b, 1, 2);
    assert a[0] == b[0] && a[1] == b[1] && a[3] == b[3] && a[4] == b[4] && a[6] == b[6] && a[7] == b[7];
    EqualByEntries(Inv(a), Inv(b));
  }

  /**
   * Off the affine matrices `Inv` is not an inverse: this matrix has bottom
   * row (1, 0, 1) and a two-sided inverse `b`, and `Det` of it is 1, yet its
   * product with `Inv` of itself is not the identity.
   */
  lemma InvOnlyInvertsAffine()
    ensures var a: Mat3 := [1.0, 0.0, 1.0, 0.0, 1.0, 0.0, 0.0, 0.0, 1.0];
            var b: Mat3 := [1.0, 0.0, -1.0, 0.0, 1.0, 0.0, 0.0, 0.0, 1.0];
            && Mul(a, b) == Identity && Mul(b, a) == Identity
            && Det(a) == 1.0 && !IsAffine(a) && Mul(a, Inv(a)) != Identity
  {
    var a: Mat3 := [1.0, 0.0, 1.0, 0.0, 1.0, 0.0, 0.0, 0.0, 1.0];
    assert Mul(a, Inv(a))[2] == 1.0;
  }

  /** The translation by `offset`. */
  function MakeTranslation(offset: Vec2): (r: Mat3)
    ensures IsAffine(r)
    ensures forall v :: MulVec(r, v) == v.Add(offset)
  {
    [1.0, 0.0, 0.0, 0.0, 1.0, 0.0, offset.x, offset.y, 1.0]
  }

  /** The uniform scaling by `scale` about the origin. */
  function MakeScaling(scale: real): (r: Mat3)
    ensures IsAffine(r)
    ensures forall v :: MulVec(r, v) == v.Scale(scale)
  {
    [scale, 0.0, 0.0, 0.0, scale, 0.0, 0.0, 0.0, 1.0]
  }

  /** Scaling by `scale` followed by translation by `offset`: the viewer's view transform. */
  function MakeTransformation(offset: Vec2, scale: real): (r: Mat3)
    ensures r == [scale, 0.0, 0.0, 0.0, scale, 0.0, offset.x, offset.y, 1.0]
    ensures IsAffine(r)
    ensures forall v :: MulVec(r, v) == v.Scale(scale).Add(offset)
  {
    var t := MakeTranslation(offset);
    var s := MakeScaling(scale);
    assert forall v :: MulVec(Mul(t, s), v) == MulVec(t, MulVec(s, v)) by {
      forall v { MulVecComposes(t, s, v); }
    }
    Mul(t, s)
  }

  /** The worked example of the view transform: offset (2, -1), scale 3 sends (1, 1) to (5, 2). */
  lemma TransformationExample()
    ensures MulVec(MakeTransformation(Vec2(2.0, -1.0), 3.0), Vec2(1.0, 1.0)) == Vec2(5.0, 2.0)
  {
  }
}

=== FILE: mandelbrot_shader.dfy ===
/**
 * The Mandelbrot shader: the interface its two GLSL sources declare, the
 * uniform schema it is constructed with, and the uniform values the viewer
 * hands it every frame.
 */
module MandelbrotShader {
  import opened Wrappers
  import opened WebGl
  import opened ShaderCanvasContext
  import AffineMath

  /** VERTEX_SHADER: attribute vec4 aVertexPosition; uniform vec2 uScreenSize. */
  const VertexShader := ShaderSource(map["aVertexPosition" := "vec4"], map["uScreenSize" := "vec2"])

  /** FRAGMENT_SHADER: uniform int uIterations; uniform mat3 uViewMat. */
  const FragmentShader := ShaderSource(map[], map["uIterations" := "int", "uViewMat" := "mat3"])

  /** UNIFORMS, in declaration order. */
  const Uniforms: Schema := [("uScreenSize", Vec2Kind), ("uIterations", IntKind), ("uViewMat", Mat3Kind)]

  /** The uniform table a program built from `Uniforms` has. */
  function Table(program: Handle): map<string, Uniform>
  {
    map[
      "uScreenSize" := Uniform(UniformLocation(program, "uScreenSize"), Vec2Kind),
      "uIterations" := Uniform(UniformLocation(program, "uIterations"), IntKind),
      "uViewMat" := Uniform(UniformLocation(program, "uViewMat"), Mat3Kind)]
  }

  /**
   * Every schema entry is declared as a uniform in one of the two sources
   * with the GLSL type its declared type stands for, and the vertex source
   * declares the attribute the runtime points the quad at.
   */
  lemma SchemaMatchesSources()
    ensures forall j :: 0 <= j < |Uniforms| ==>
              var (name, kind) := Uniforms[j];
              || (name in VertexShader.uniforms && VertexShader.uniforms[name] == GlslType(kind))
              || (name in FragmentShader.uniforms && FragmentShader.uniforms[name] == GlslType(kind))
    ensures Names(Uniforms) == VertexShader.uniforms.Keys + FragmentShader.uniforms.Keys
    ensures AttribVertexPos in VertexShader.attributes
  {
    assert Uniforms[0].0 in Names(Uniforms) && Uniforms[1].0 in Names(Uniforms) && Uniforms[2].0 in Names(Uniforms);
  }

  /**
   * UNIFORMS types the fields of the MandelbrotUniforms interface: it names
   * exactly uScreenSize, uIterations and uViewMat, and each field's
   * TypeScript type (a Vec2, a number, a Mat3) has the value shape its
   * declared uniform type expects.
   */
  lemma UniformsTypeTheInterface(screenSize: AffineMath.Vec2, iterations: real, view: AffineMath.Mat3)
    ensures Names(Uniforms) == {"uScreenSize", "uIterations", "uViewMat"}
    ensures forall j :: 0 <= j < |Uniforms| ==>
              match Uniforms[j].0
              case "uScreenSize" => Fits(Uniforms[j].1, Vector2(screenSize))
              case "uIterations" => Fits(Uniforms[j].1, Number(iterations))
              case _ => Fits(Uniforms[j].1, Matrix(view))
  {
    assert Uniforms[0].0 in Names(Uniforms) && Uniforms[1].0 in Names(Uniforms) && Uniforms[2].0 in Names(Uniforms);
  }

  /**
   * createMandelbrotShader: a program from the two sources and the schema.
   * It succeeds exactly when both sources compile, they link, and the linked
   * program has the three uniforms active; the program's table is then
   * `Table` of its own program object.
   */
  function CreateMandelbrotShader(d: Driver, g: Gl): (s: Step<ShaderProgram>)
    ensures s.result.Ok? <==>
              && d.canCreateShaders
              && d.compileLog(VertexStage, VertexShader).None?
              && d.compileLog(FragmentStage, FragmentShader).None?
              && d.linkLog(VertexShader, FragmentShader).None?
              && d.uniformActive(VertexShader, FragmentShader, "uScreenSize")
              && d.uniformActive(VertexShader, FragmentShader, "uIterations")
              && d.uniformActive(VertexShader, FragmentShader, "uViewMat")
    ensures s.result.Ok? ==> s.result.value.uniformLocations == Table(s.result.value.program)
    ensures s.result.Ok? ==> s.gl.live == g.live + Handles(s.result.value)
  {
    var s := NewShaderProgram(d, VertexShader, FragmentShader, Uniforms, g);
    ConstructionSucceeds(d, VertexShader, FragmentShader, Uniforms, g);
    assert Names(Uniforms) == {"uScreenSize", "uIterations", "uViewMat"} by {
      assert Uniforms[0].0 in Names(Uniforms) && Uniforms[1].0 in Names(Uniforms) && Uniforms[2].0 in Names(Uniforms);
    }
    s
  }

  /**
   * A driver that compiles and links the two sources and reports exactly
   * the uniforms they declare as active.
   */
  ghost predicate Faithful(d: Driver)
  {
    && d.canCreateShaders
    && d.compileLog(VertexStage, VertexShader).None?
    && d.compileLog(FragmentStage, FragmentShader).None?
    && d.linkLog(VertexShader, FragmentShader).None?
    && forall name :: d.uniformActive(VertexShader, FragmentShader, name) <==>
                        name in VertexShader.uniforms || name in FragmentShader.uniforms
  }

  /** Under a faithful driver the Mandelbrot program is always constructed. */
  lemma FaithfulDriverBuilds(d: Driver, g: Gl)
    requires Faithful(d)
    ensures CreateMandelbrotShader(d, g).result.Ok?
  {
    assert "uScreenSize" in VertexShader.uniforms;
    assert "uIterations" in FragmentShader.uniforms && "uViewMat" in FragmentShader.uniforms;
  }

  function Vector2(v: AffineMath.Vec2): Value
  {
    Vector([v.x, v.y])
  }

  /**
   * createUniforms as written: the render size, the iteration count, the
   * initial z and the view matrix, in that order. Neither the schema nor
   * either source has a `uInitialZ`.
   */
  function ViewerUniformsAsWritten(renderSize: AffineMath.Vec2, iterations: real, initialZ: AffineMath.Vec2,
                                   view: AffineMath.Mat3): (r: Values)
    ensures Names(r) == Names(Uniforms) + {"uInitialZ"}
  {
    var r: Values := [("uScreenSize", Vector2(renderSize)), ("uIterations", Number(iterations)),
                      ("uInitialZ", Vector2(initialZ)), ("uViewMat", Matrix(view))];
    assert r[0].0 in Names(r) && r[1].0 in Names(r) && r[2].0 in Names(r) && r[3].0 in Names(r);
    assert Uniforms[0].0 in Names(Uniforms) && Uniforms[1].0 in Names(Uniforms) && Uniforms[2].0 in Names(Uniforms);
    r
  }

  /**
   * createUniforms as evidently intended: exactly the schema's uniforms, in
   * the schema's order, each with a value of its declared type.
   */
  function ViewerUniforms(renderSize: AffineMath.Vec2, iterations: real, view: AffineMath.Mat3): (r: Values)
    ensures |r| == |Uniforms|
    ensures forall j :: 0 <= j < |r| ==> r[j].0 == Uniforms[j].0 && Fits(Uniforms[j].1, r[j].1)
  {
    [("uScreenSize", Vector2(renderSize)), ("uIterations", Number(iterations)), ("uViewMat", Matrix(view))]
  }

  /**
   * Handing createUniforms' values, as written, to the Mandelbrot program
   * writes the screen size and the iteration count and then fails on
   * `uInitialZ`: the view matrix is never written, so the fragment shader
   * never sees the current view.
   */
  lemma ViewerUniformsAsWrittenRejected(p: ShaderProgram, g: Gl, renderSize: AffineMath.Vec2, iterations: real,
                                        initialZ: AffineMath.Vec2, view: AffineMath.Mat3)
    requires p.uniformLocations == Table(p.program)
    ensures var s := SetUniforms(p, ViewerUniformsAsWritten(renderSize, iterations, initialZ, view), g);
            && s.result == Err(UnknownUniform("uInitialZ"))
            && s.gl.trace == g.trace + [
                 UseProgram(p.program),
                 Uniform2f(UniformLocation(p.program, "uScreenSize"), Num(renderSize.x), Num(renderSize.y)),
                 Uniform1i(UniformLocation(p.program, "uIterations"), Num(iterations))]
            && forall c :: c in s.gl.trace[|g.trace|..] ==> !c.UniformMatrix3fv?
  {
    var values := ViewerUniformsAsWritten(renderSize, iterations, initialZ, view);
    AsWrittenStopsAtInitialZ(p, renderSize, iterations, initialZ, view);
    var s := SetUniforms(p, values, g);
    assert s.gl.trace[|g.trace|..] == [
      UseProgram(p.program),
      Uniform2f(UniformLocation(p.program, "uScreenSize"), Num(renderSize.x), Num(renderSize.y)),
      Uniform1i(UniformLocation(p.program, "uIterations"), Num(iterations))];
  }

  /** The first two values as written are written, as a vec2 and an int; the third cannot be. */
  lemma AsWrittenStopsAtInitialZ(p: ShaderProgram, renderSize: AffineMath.Vec2, iterations: real,
                                 initialZ: AffineMath.Vec2, view: AffineMath.Mat3)
    requires p.uniformLocations == Table(p.program)
    ensures var values := ViewerUniformsAsWritten(renderSize, iterations, initialZ, view);
            && FirstFailing(values, WritableIn(p)) == 2
            && Rejection(p, values[2]) == UnknownUniform("uInitialZ")
            && Write(p.uniformLocations[values[0].0], values[0].1)
               == Uniform2f(UniformLocation(p.program, "uScreenSize"), Num(renderSize.x), Num(renderSize.y))
            && Write(p.uniformLocations[values[1].0], values[1].1)
               == Uniform1i(UniformLocation(p.program, "uIterations"), Num(iterations))
  {
    var values := ViewerUniformsAsWritten(renderSize, iterations, initialZ, view);
    assert WritableIn(p)(values[0]) && WritableIn(p)(values[1]) && !WritableIn(p)(values[2]);
  }

  /**
   * The intended values are accepted: after making the program current,
   * one write per schema uniform is issued, in schema order, the view
   * matrix going to `uViewMat` untransposed.
   */
  lemma ViewerUniformsAccepted(p: ShaderProgram, g: Gl, renderSize: AffineMath.Vec2, iterations: real,
                               view: AffineMath.Mat3)
    requires p.uniformLocations == Table(p.program)
    ensures var s := SetUniforms(p, ViewerUniforms(renderSize, iterations, view), g);
            && s.result == Ok(())
            && s.gl.trace == g.trace + [
                 UseProgram(p.program),
                 Uniform2f(UniformLocation(p.program, "uScreenSize"), Num(renderSize.x), Num(renderSize.y)),
                 Uniform1i(UniformLocation(p.program, "uIterations"), Num(iterations)),
                 UniformMatrix3fv(UniformLocation(p.program, "uViewMat"), false, view)]
  {
    var values := ViewerUniforms(renderSize, iterations, view);
    IntendedAllWritable(p, renderSize, iterations, view);
    var s := SetUniforms(p, values, g);
    assert s.gl.trace[|g.trace|..] == [
      UseProgram(p.program),
      Uniform2f(UniformLocation(p.program, "uScreenSize"), Num(renderSize.x), Num(renderSize.y)),
      Uniform1i(UniformLocation(p.program, "uIterations"), Num(iterations)),
      UniformMatrix3fv(UniformLocation(p.program, "uViewMat"), false, view)];
  }

  /** Each intended value can be written, and is written with the call for its schema type. */
  lemma IntendedAllWritable(p: ShaderProgram, renderSize: AffineMath.Vec2, iterations: real, view: AffineMath.Mat3)
    requires p.uniformLocations == Table(p.program)
    ensures var values := ViewerUniforms(renderSize, iterations, view);
            && FirstFailing(values, WritableIn(p)) == 3
            && Write(p.uniformLocations[values[0].0], values[0].1)
               == Uniform2f(UniformLocation(p.program, "uScreenSize"), Num(renderSize.x), Num(renderSize.y))
            && Write(p.uniformLocations[values[1].0], values[1].1)
               == Uniform1i(UniformLocation(p.program, "uIterations"), Num(iterations))
            && Write(p.uniformLocations[values[2].0], values[2].1)
               == UniformMatrix3fv(UniformLocation(p.program, "uViewMat"), false, view)
  {
    var values := ViewerUniforms(renderSize, iterations, view);
    assert WritableIn(p)(values[0]) && WritableIn(p)(values[1]) && WritableIn(p)(values[2]);
  }

  /**
   * One frame end to end on a fresh context: build the context, construct
   * and install the Mandelbrot program, write the intended uniforms and
   * render. The frame ends by drawing the quad's four vertices as a
   * triangle strip from the quad buffer, with that program current.
   */
  lemma FrameDrawsQuad(d: Driver, g0: Gl, width: nat, height: nat, renderSize: AffineMath.Vec2, iterations: real,
                       view: AffineMath.Mat3)
    requires Faithful(d)
    ensures var (ctx, g1) := NewCanvasContext(Some(g0)).value;
            var s := CreateMandelbrotShader(d, g1);
            && s.result.Ok?
            && var (installed, g2) := SetShader(ctx, s.result.value, s.gl);
               var u := UpdateUniforms(installed, ViewerUniforms(renderSize, iterations, view), g2);
               var r := Render(installed, width, height, u.gl);
               && u.result.Ok?
               && r.currentProgram == Some(s.result.value.program)
               && r.arrayBuffer == Some(ctx.positionBuffer)
               && r.bufferData[ctx.positionBuffer] == QuadPositions
               && r.trace[|r.trace| - 1] == DrawArrays(GlTriangleStrip, 0, 4)
  {
    var (ctx, g1) := NewCanvasContext(Some(g0)).value;
    FaithfulDriverBuilds(d, g1);
    var s := CreateMandelbrotShader(d, g1);
    assert SameBindings(g1, s.gl);
    var (installed, g2) := SetShader(ctx, s.result.value, s.gl);
    InstalledProgramDrawsQuad(installed, s.result.value, g2, width, height, renderSize, iterations, view);
  }

  /**
   * With the Mandelbrot program installed and the quad in the context's
   * buffer, writing the intended uniforms succeeds and the render that
   * follows draws the quad with that program current.
   */
  lemma InstalledProgramDrawsQuad(ctx: CanvasContext, p: ShaderProgram, g: Gl, width: nat, height: nat,
                                  renderSize: AffineMath.Vec2, iterations: real, view: AffineMath.Mat3)
    requires ctx.shaderProgram == Some(p) && p.uniformLocations == Table(p.program)
    requires ctx.positionBuffer in g.bufferData && g.bufferData[ctx.positionBuffer] == QuadPositions
    ensures var u := UpdateUniforms(ctx, ViewerUniforms(renderSize, iterations, view), g);
            var r := Render(ctx, width, height, u.gl);
            && u.result.Ok?
            && r.currentProgram == Some(p.program)
            && r.arrayBuffer == Some(ctx.positionBuffer)
            && r.bufferData[ctx.positionBuffer] == QuadPositions
            && r.trace[|r.trace| - 1] == DrawArrays(GlTriangleStrip, 0, 4)
  {
    ViewerUniformsAccepted(p, g, renderSize, iterations, view);
  }
}

=== FILE: shader_canvas_context.dfy ===
/**
 * The shader runtime. A `ShaderProgram` compiles and links a vertex and a
 * fragment source, resolves a declared uniform schema against the linked
 * program and writes uniform values according to their declared types. A
 * `CanvasContext` owns the full-screen quad buffer and at most one program,
 * and draws the quad through it.
 *
 * Every operation is a function from an abstract WebGL state to a new one;
 * what the source reports by throwing is an `Err` here, returned together
 * with the state the context is left in.
 */
module ShaderCanvasContext {
  import opened Wrappers
  import opened WebGl

  /** The vertex attribute every program is expected to declare for the quad's corners. */
  const AttribVertexPos := "aVertexPosition"

  /** The declared type of a uniform: the source's FLOAT, INT, VEC_2, VEC_3, VEC_4, MAT_2, MAT_3 and MAT_4. */
  datatype UniformType = FloatKind | IntKind | Vec2Kind | Vec3Kind | Vec4Kind | Mat2Kind | Mat3Kind | Mat4Kind

  /** The GLSL keyword a uniform of this type is declared with. */
  function GlslType(kind: UniformType): string
  {
    match kind
    case FloatKind => "float"
    case IntKind => "int"
    case Vec2Kind => "vec2"
    case Vec3Kind => "vec3"
    case Vec4Kind => "vec4"
    case Mat2Kind => "mat2"
    case Mat3Kind => "mat3"
    case Mat4Kind => "mat4"
  }

  /** The number of scalars one value of this type consists of. */
  function Arity(kind: UniformType): nat
  {
    match kind
    case FloatKind => 1
    case IntKind => 1
    case Vec2Kind => 2
    case Vec3Kind => 3
    case Vec4Kind => 4
    case Mat2Kind => 4
    case Mat3Kind => 9
    case Mat4Kind => 16
  }

  /** No name occurs twice. */
  predicate UniqueNames<T>(entries: seq<(string, T)>)
  {
    forall i, j :: 0 <= i < j < |entries| ==> entries[i].0 != entries[j].0
  }

  /**
   * A JavaScript object used as a dictionary, as `Object.entries` lists it:
   * its (name, value) pairs, each name once, in insertion order (the order
   * `Object.entries` uses for names that are not array indices, which every
   * GLSL identifier is).
   */
  type Record<T> = entries: seq<(string, T)> | UniqueNames(entries) witness []

  function Names<T>(entries: seq<(string, T)>): set<string>
  {
    set i | 0 <= i < |entries| :: entries[i].0
  }

  /** The index of the first entry that fails `ok`, or the length if there is none. */
  function FirstFailing<E>(entries: seq<E>, ok: E -> bool): (k: nat)
    ensures k <= |entries|
    ensures forall j :: 0 <= j < k ==> ok(entries[j])
    ensures k < |entries| ==> !ok(entries[k])
  {
    if |entries| == 0 || !ok(entries[0]) then 0 else 1 + FirstFailing(entries[1..], ok)
  }

  /** No entry fails `ok` exactly when every entry satisfies it. */
  lemma NoneFailingIff<E>(entries: seq<E>, ok: E -> bool)
    ensures FirstFailing(entries, ok) == |entries| <==> forall j :: 0 <= j < |entries| ==> ok(entries[j])
  {
    var k := FirstFailing(entries, ok);
    if k < |entries| {
      assert !ok(entries[k]);
    }
  }

  /** A uniform schema: each uniform name with its declared type. */
  type Schema = Record<UniformType>

  /**
   * A uniform value as the caller supplies it: a number, an object with
   * x, y, z, w fields (here its components in that order), or an object with
   * a flat column-major array `m`. `null`, `undefined` and an `m` that is
   * not an array are not values here.
   */
  datatype Value = Number(n: real) | Vector(components: seq<real>) | Matrix(m: seq<real>)

  type Values = Record<Value>

  /** The value has the shape the declared type expects. */
  predicate Fits(kind: UniformType, value: Value)
  {
    match kind
    case FloatKind => value.Number?
    case IntKind => value.Number?
    case Vec2Kind => value.Vector? && |value.components| == 2
    case Vec3Kind => value.Vector? && |value.components| == 3
    case Vec4Kind => value.Vector? && |value.components| == 4
    case Mat2Kind => value.Matrix? && |value.m| == 4
    case Mat3Kind => value.Matrix? && |value.m| == 9
    case Mat4Kind => value.Matrix? && |value.m| == 16
  }

  /** The scalars that make up a value. */
  function Components(value: Value): seq<real>
  {
    match value
    case Number(n) => [n]
    case Vector(cs) => cs
    case Matrix(m) => m
  }

  /** The errors the source throws. */
  datatype Error =
    | ContextUnavailable
    | ShaderCreationFailed
    | CompileFailed(log: string)
    | LinkFailed(log: string)
    | UniformNotFound(name: string)
    | UnknownUniform(name: string)
    | MatrixArrayMissing(name: string)

  /** The outcome of an operation together with the state it leaves the context in. */
  datatype Step<T> = Step(result: Result<T, Error>, gl: Gl)

  /** A uniform resolved in a linked program, with its declared type. */
  datatype Uniform = Uniform(location: UniformLocation, kind: UniformType)

  /**
   * A linked program and the three objects it owns. `vertexPosition` is the
   * location of `AttribVertexPos` as the driver reported it, -1 included.
   */
  datatype ShaderProgram = ShaderProgram(
    vertexShader: Handle,
    fragmentShader: Handle,
    program: Handle,
    vertexPosition: int,
    uniformLocations: map<string, Uniform>)

  function Handles(p: ShaderProgram): set<Handle>
  {
    {p.vertexShader, p.fragmentShader, p.program}
  }

  /** The calls `Destroy` issues, in order. */
  function DestroyCalls(p: ShaderProgram): seq<Call>
  {
    [DeleteProgram(p.program), DeleteShader(p.vertexShader), DeleteShader(p.fragmentShader)]
  }

  /** Whether the program linked from `vs` and `fs` has an active uniform called as the schema entry is. */
  function ActiveIn(d: Driver, vs: ShaderSource, fs: ShaderSource): ((string, UniformType)) -> bool
  {
    (entry: (string, UniformType)) => d.uniformActive(vs, fs, entry.0)
  }

  // ---------------------------------------------------------------- compileShader

  /**
   * compileShader: creates a shader object for the stage, sets its source and
   * compiles it. If no shader object can be created, it fails without having
   * allocated anything; if compilation fails, it deletes its own shader and
   * reports the driver's log. Either way no object of its own is left live.
   */
  function Compile(d: Driver, stage: Stage, source: ShaderSource, g: Gl): (s: Step<Handle>)
    ensures g.trace <= s.gl.trace && SameBindings(g, s.gl)
    ensures s.result.Ok? <==> d.canCreateShaders && d.compileLog(stage, source).None?
    ensures s.result.Ok? ==> s.result.value == g.next && s.gl.live == g.live + {g.next} && s.gl.next == g.next + 1
    ensures s.result.Err? ==> s.gl.live == g.live && g.next <= s.gl.next
    ensures !d.canCreateShaders ==> s.result == Err(ShaderCreationFailed)
    ensures d.canCreateShaders && d.compileLog(stage, source).Some? ==>
              s.result == Err(CompileFailed(d.compileLog(stage, source).value))
  {
    if !d.canCreateShaders then
      Step(Err(ShaderCreationFailed), Issue(g, CreateShader(stage, None)))
    else
      var shader := g.next;
      var compiled := Issue(Issue(Issue(Allocate(g), CreateShader(stage, Some(shader))),
                                  SetShaderSource(shader, source)),
                            CompileShader(shader));
      match d.compileLog(stage, source)
      case Some(log) => Step(Err(CompileFailed(log)), ReleaseShader(compiled, shader))
      case None => Step(Ok(shader), compiled)
  }

  // ---------------------------------------------------------------- ShaderProgram

  /** ShaderProgram.destroy: deletes the program and both shaders. */
  function Destroy(p: ShaderProgram, g: Gl): (r: Gl)
    ensures r.live == g.live - Handles(p) && r.next == g.next && SameBindings(g, r)
    ensures r.trace == g.trace + DestroyCalls(p)
  {
    ReleaseShader(ReleaseShader(ReleaseProgram(g, p.program), p.vertexShader), p.fragmentShader)
  }

  /**
   * The source's loop over the schema: resolves each name in turn and adds
   * it to the table; at the first name the program does not have, it
   * destroys the program and fails naming that uniform.
   */
  function ResolveUniforms(d: Driver, vs: ShaderSource, fs: ShaderSource, rest: Schema, p: ShaderProgram, g: Gl)
    : (s: Step<ShaderProgram>)
    decreases |rest|
    ensures var k := FirstFailing(rest, ActiveIn(d, vs, fs));
            if k == |rest| then
              && s.gl == g
              && s.result.Ok?
              && s.result.value.(uniformLocations := p.uniformLocations) == p
              && s.result.value.uniformLocations.Keys == p.uniformLocations.Keys + Names(rest)
              && (forall j :: 0 <= j < |rest| ==>
                    s.result.value.uniformLocations[rest[j].0] == Uniform(UniformLocation(p.program, rest[j].0), rest[j].1))
              && (forall name :: name in p.uniformLocations && name !in Names(rest) ==>
                    s.result.value.uniformLocations[name] == p.uniformLocations[name])
            else
              s == Step(Err(UniformNotFound(rest[k].0)), Destroy(p, g))
  {
    if |rest| == 0 then
      Step(Ok(p), g)
    else
      var (name, kind) := rest[0];
      if !d.uniformActive(vs, fs, name) then
        Step(Err(UniformNotFound(name)), Destroy(p, g))
      else
        var entry := Uniform(UniformLocation(p.program, name), kind);
        var tail: Schema := rest[1..];
        var s := ResolveUniforms(d, vs, fs, tail, p.(uniformLocations := p.uniformLocations[name := entry]), g);
        assert Names(rest) == {name} + Names(tail) by {
          forall n | n in Names(rest) ensures n in {name} + Names(tail) {
            var i :| 0 <= i < |rest| && rest[i].0 == n;
            if i > 0 { assert tail[i - 1].0 == n; }
          }
        }
        assert name !in Names(tail);
        s
  }

  /** Resolution stops at the first inactive name, at or before any inactive name one points at. */
  lemma FirstInactiveIsReported(d: Driver, vs: ShaderSource, fs: ShaderSource, rest: Schema, p: ShaderProgram, g: Gl, j: nat)
    requires j < |rest| && !d.uniformActive(vs, fs, rest[j].0)
    ensures var k := FirstFailing(rest, ActiveIn(d, vs, fs));
            && k <= j
            && !d.uniformActive(vs, fs, rest[k].0)
            && ResolveUniforms(d, vs, fs, rest, p, g) == Step(Err(UniformNotFound(rest[k].0)), Destroy(p, g))
  {
    assert !ActiveIn(d, vs, fs)(rest[j]);
  }

  /**
   * Creates a program, attaches the two shaders and links it, and records
   * the quad attribute's location; the uniform table is still empty.
   */
  function Link(d: Driver, vs: ShaderSource, fs: ShaderSource, vertexShader: Handle, fragmentShader: Handle, g: Gl)
    : (r: (ShaderProgram, Gl))
    ensures r.0 == ShaderProgram(vertexShader, fragmentShader, g.next, d.attribLocation(vs, fs, AttribVertexPos), map[])
    ensures r.1.live == g.live + {g.next} && r.1.next == g.next + 1
    ensures SameBindings(g, r.1)
    ensures r.1.trace == g.trace + [CreateProgram(g.next), AttachShader(g.next, vertexShader),
                                    AttachShader(g.next, fragmentShader), LinkProgram(g.next)]
  {
    var program := g.next;
    var linked := Issue(Issue(Issue(Issue(Allocate(g), CreateProgram(program)),
                                    AttachShader(program, vertexShader)),
                              AttachShader(program, fragmentShader)),
                        LinkProgram(program));
    (ShaderProgram(vertexShader, fragmentShader, program, d.attribLocation(vs, fs, AttribVertexPos), map[]), linked)
  }

  /**
   * The ShaderProgram constructor: compiles both stages, links them,
   * records the quad attribute's location without checking it, and resolves
   * the schema. A failed link or a missing uniform deletes all three objects
   * before failing; a failed fragment compilation does not delete the vertex
   * shader compiled before it.
   */
  function NewShaderProgram(d: Driver, vs: ShaderSource, fs: ShaderSource, schema: Schema, g: Gl): (s: Step<ShaderProgram>)
    ensures g.trace <= s.gl.trace && SameBindings(g, s.gl)
    ensures s.result.Ok? ==> var p := s.result.value;
              && p.vertexShader == g.next && p.fragmentShader == g.next + 1 && p.program == g.next + 2
              && s.gl.live == g.live + Handles(p)
  {
    var v := Compile(d, VertexStage, vs, g);
    if v.result.Err? then
      Step(Err(v.result.error), v.gl)
    else
      var f := Compile(d, FragmentStage, fs, v.gl);
      if f.result.Err? then
        Step(Err(f.result.error), f.gl)
      else
        var (p, linked) := Link(d, vs, fs, v.result.value, f.result.value, f.gl);
        match d.linkLog(vs, fs)
        case Some(log) => Step(Err(LinkFailed(log)), Destroy(p, linked))
        case None => ResolveUniforms(d, vs, fs, schema, p, linked)
  }

  /** Everything the constructor depends on succeeds. */
  predicate Builds(d: Driver, vs: ShaderSource, fs: ShaderSource, schema: Schema)
  {
    && d.canCreateShaders
    && d.compileLog(VertexStage, vs).None?
    && d.compileLog(FragmentStage, fs).None?
    && d.linkLog(vs, fs).None?
    && forall j :: 0 <= j < |schema| ==> d.uniformActive(vs, fs, schema[j].0)
  }

  /**
   * Construction succeeds exactly when both stages compile, they link, and
   * every schema name is an active uniform; the program's table then has
   * exactly the schema's names, each at a location of this program with its
   * declared type, and the attribute location is whatever the driver said.
   */
  lemma ConstructionSucceeds(d: Driver, vs: ShaderSource, fs: ShaderSource, schema: Schema, g: Gl)
    ensures var s := NewShaderProgram(d, vs, fs, schema, g);
            && (s.result.Ok? <==> Builds(d, vs, fs, schema))
            && (s.result.Ok? ==>
                  && s.result.value.uniformLocations.Keys == Names(schema)
                  && s.result.value.vertexPosition == d.attribLocation(vs, fs, AttribVertexPos)
                  && forall j :: 0 <= j < |schema| ==>
                       s.result.value.uniformLocations[schema[j].0]
                         == Uniform(UniformLocation(s.result.value.program, schema[j].0), schema[j].1))
  {
    var k := FirstFailing(schema, ActiveIn(d, vs, fs));
    if k < |schema| {
      assert !d.uniformActive(vs, fs, schema[k].0);
    }
  }

  /** If the vertex stage cannot be created or compiled, construction fails with that error and leaves nothing live. */
  lemma VertexFailureReleasesAll(d: Driver, vs: ShaderSource, fs: ShaderSource, schema: Schema, g: Gl)
    requires !d.canCreateShaders || d.compileLog(VertexStage, vs).Some?
    ensures var s := NewShaderProgram(d, vs, fs, schema, g);
            && s.result.Err?
            && s.result.error == (if !d.canCreateShaders then ShaderCreationFailed
                                  else CompileFailed(d.compileLog(VertexStage, vs).value))
            && s.gl.live == g.live
  {
  }

  /**
   * If the vertex stage compiles but the fragment stage does not,
   * construction fails with the fragment's log and the vertex shader it
   * compiled first (the handle `g.next`) is left live: nothing deletes it.
   */
  lemma FragmentFailureLeaksVertexShader(d: Driver, vs: ShaderSource, fs: ShaderSource, schema: Schema, g: Gl)
    requires d.canCreateShaders && d.compileLog(VertexStage, vs).None?
    requires d.compileLog(FragmentStage, fs).Some?
    ensures var s := NewShaderProgram(d, vs, fs, schema, g);
            && s.result == Err(CompileFailed(d.compileLog(FragmentStage, fs).value))
            && g.next !in g.live
            && s.gl.live == g.live + {g.next}
  {
  }

  /** A failed link deletes the program and both shaders before failing with the link log. */
  lemma LinkFailureReleasesAll(d: Driver, vs: ShaderSource, fs: ShaderSource, schema: Schema, g: Gl)
    requires d.canCreateShaders && d.compileLog(VertexStage, vs).None? && d.compileLog(FragmentStage, fs).None?
    requires d.linkLog(vs, fs).Some?
    ensures var s := NewShaderProgram(d, vs, fs, schema, g);
            && s.result == Err(LinkFailed(d.linkLog(vs, fs).value))
            && s.gl.live == g.live
            && s.gl.trace[|s.gl.trace| - 3..]
               == [DeleteProgram(g.next + 2), DeleteShader(g.next), DeleteShader(g.next + 1)]
  {
  }

  /**
   * If the program links but some schema name is not an active uniform,
   * construction fails naming the first such uniform in schema order, after
   * deleting all three objects.
   */
  lemma MissingUniformReleasesAll(d: Driver, vs: ShaderSource, fs: ShaderSource, schema: Schema, g: Gl, j: nat)
    requires d.canCreateShaders && d.compileLog(VertexStage, vs).None? && d.compileLog(FragmentStage, fs).None?
    requires d.linkLog(vs, fs).None?
    requires j < |schema| && !d.uniformActive(vs, fs, schema[j].0)
    ensures var s := NewShaderProgram(d, vs, fs, schema, g);
            var k := FirstFailing(schema, ActiveIn(d, vs, fs));
            && k <= j
            && !d.uniformActive(vs, fs, schema[k].0)
            && s.result == Err(UniformNotFound(schema[k].0))
            && s.gl.live == g.live
  {
    var v := Compile(d, VertexStage, vs, g);
    var f := Compile(d, FragmentStage, fs, v.gl);
    var (p, linked) := Link(d, vs, fs, v.result.value, f.result.value, f.gl);
    assert NewShaderProgram(d, vs, fs, schema, g) == ResolveUniforms(d, vs, fs, schema, p, linked);
    FirstInactiveIsReported(d, vs, fs, schema, p, linked, j);
  }

  /** Destroying a freshly constructed program leaves exactly the objects that were live before construction. */
  lemma ConstructThenDestroyReleasesAll(d: Driver, vs: ShaderSource, fs: ShaderSource, schema: Schema, g: Gl)
    requires NewShaderProgram(d, vs, fs, schema, g).result.Ok?
    ensures var s := NewShaderProgram(d, vs, fs, schema, g);
            Destroy(s.result.value, s.gl).live == g.live
  {
  }

  /**
   * If the driver only reports uniforms the sources declare, a schema naming
   * a uniform that neither source declares cannot be constructed.
   */
  lemma UndeclaredUniformRejected(d: Driver, vs: ShaderSource, fs: ShaderSource, schema: Schema, g: Gl, j: nat)
    requires forall name :: d.uniformActive(vs, fs, name) ==> name in vs.uniforms || name in fs.uniforms
    requires j < |schema| && schema[j].0 !in vs.uniforms && schema[j].0 !in fs.uniforms
    ensures NewShaderProgram(d, vs, fs, schema, g).result.Err?
  {
    ConstructionSucceeds(d, vs, fs, schema, g);
  }

  // ---------------------------------------------------------------- setUniforms

  function Scalar(value: Value): Arg
  {
    if value.Number? then Num(value.n) else NonNumeric
  }

  /** Field i of the value (x, y, z, w for i = 0, 1, 2, 3); a missing field is undefined. */
  function Field(value: Value, i: nat): Arg
  {
    if value.Vector? && i < |value.components| then Num(value.components[i]) else NonNumeric
  }

  predicate IsMatrixType(kind: UniformType)
  {
    kind.Mat2Kind? || kind.Mat3Kind? || kind.Mat4Kind?
  }

  /**
   * Whether `setUniforms` can write the entry: its name is in the program's
   * table and, when that uniform is a matrix, the value has an `m` array.
   * Without one, `uniformMatrix*fv` is handed undefined, which WebGL rejects
   * with a TypeError before doing anything.
   */
  predicate Writable(p: ShaderProgram, entry: (string, Value))
  {
    && entry.0 in p.uniformLocations
    && (IsMatrixType(p.uniformLocations[entry.0].kind) ==> entry.1.Matrix?)
  }

  function WritableIn(p: ShaderProgram): ((string, Value)) -> bool
  {
    (entry: (string, Value)) => Writable(p, entry)
  }

  /** The error for an entry that is not writable. */
  function Rejection(p: ShaderProgram, entry: (string, Value)): Error
  {
    if entry.0 !in p.uniformLocations then UnknownUniform(entry.0) else MatrixArrayMissing(entry.0)
  }

  /** The uniform type a call writes, if it is a uniform write. */
  function WrittenType(c: Call): Option<UniformType>
  {
    match c
    case Uniform1f(_, _) => Some(FloatKind)
    case Uniform1i(_, _) => Some(IntKind)
    case Uniform2f(_, _, _) => Some(Vec2Kind)
    case Uniform3f(_, _, _, _) => Some(Vec3Kind)
    case Uniform4f(_, _, _, _, _) => Some(Vec4Kind)
    case UniformMatrix2fv(_, _, _) => Some(Mat2Kind)
    case UniformMatrix3fv(_, _, _) => Some(Mat3Kind)
    case UniformMatrix4fv(_, _, _) => Some(Mat4Kind)
    case _ => None
  }

  predicate IsMatrixWrite(c: Call)
  {
    c.UniformMatrix2fv? || c.UniformMatrix3fv? || c.UniformMatrix4fv?
  }

  /** The scalars a uniform write hands to the driver, when they are all numbers. */
  function Payload(c: Call): Option<seq<real>>
  {
    match c
    case Uniform1f(_, Num(x)) => Some([x])
    case Uniform1i(_, Num(x)) => Some([x])
    case Uniform2f(_, Num(x), Num(y)) => Some([x, y])
    case Uniform3f(_, Num(x), Num(y), Num(z)) => Some([x, y, z])
    case Uniform4f(_, Num(x), Num(y), Num(z), Num(w)) => Some([x, y, z, w])
    case UniformMatrix2fv(_, _, data) => Some(data)
    case UniformMatrix3fv(_, _, data) => Some(data)
    case UniformMatrix4fv(_, _, data) => Some(data)
    case _ => None
  }

  /**
   * The write `setUniforms` issues for one value, chosen by the uniform's
   * declared type: the call for that type, at the uniform's location,
   * matrices untransposed. When the value has the shape the type expects,
   * the call carries exactly the value's scalars; a matrix write carries the
   * value's array whatever its length.
   */
  function Write(u: Uniform, value: Value): (c: Call)
    requires IsMatrixType(u.kind) ==> value.Matrix?
    ensures WrittenType(c) == Some(u.kind)
    ensures c.location == u.location
    ensures IsMatrixWrite(c) ==> !c.transpose
    ensures Fits(u.kind, value) ==> Payload(c) == Some(Components(value)) && |Components(value)| == Arity(u.kind)
    ensures IsMatrixType(u.kind) ==> Payload(c) == Some(Components(value))
  {
    match u.kind
    case FloatKind => Uniform1f(u.location, Scalar(value))
    case IntKind => Uniform1i(u.location, Scalar(value))
    case Vec2Kind =>
      assert Fits(Vec2Kind, value) ==> value.components == [value.components[0], value.components[1]];
      Uniform2f(u.location, Field(value, 0), Field(value, 1))
    case Vec3Kind =>
      assert Fits(Vec3Kind, value) ==> value.components == [value.components[0], value.components[1], value.components[2]];
      Uniform3f(u.location, Field(value, 0), Field(value, 1), Field(value, 2))
    case Vec4Kind =>
      assert Fits(Vec4Kind, value) ==>
        value.components == [value.components[0], value.components[1], value.components[2], value.components[3]];
      Uniform4f(u.location, Field(value, 0), Field(value, 1), Field(value, 2), Field(value, 3))
    case Mat2Kind => UniformMatrix2fv(u.location, false, value.m)
    case Mat3Kind => UniformMatrix3fv(u.location, false, value.m)
    case Mat4Kind => UniformMatrix4fv(u.location, false, value.m)
  }

  /**
   * The source's loop over the values: looks each name up and issues its
   * write; at the first entry that cannot be written (an unknown name, or a
   * matrix uniform without an array) it stops and fails, with the writes for
   * the earlier entries already issued.
   */
  function WriteUniforms(p: ShaderProgram, rest: Values, g: Gl): (s: Step<()>)
    decreases |rest|
    ensures var k := FirstFailing(rest, WritableIn(p));
            && s.gl.(trace := g.trace) == g
            && |s.gl.trace| == |g.trace| + k
            && s.gl.trace[..|g.trace|] == g.trace
            && (forall j :: 0 <= j < k ==> s.gl.trace[|g.trace| + j] == Write(p.uniformLocations[rest[j].0], rest[j].1))
            && s.result == (if k == |rest| then Ok(()) else Err(Rejection(p, rest[k])))
  {
    if |rest| == 0 then
      Step(Ok(()), g)
    else if !Writable(p, rest[0]) then
      Step(Err(Rejection(p, rest[0])), g)
    else
      var g1 := Issue(g, Write(p.uniformLocations[rest[0].0], rest[0].1));
      var tail: Values := rest[1..];
      var s := WriteUniforms(p, tail, g1);
      assert WritableIn(p)(rest[0]);
      assert FirstFailing(rest, WritableIn(p)) == 1 + FirstFailing(tail, WritableIn(p));
      forall j | 1 <= j < FirstFailing(rest, WritableIn(p))
        ensures s.gl.trace[|g.trace| + j] == Write(p.uniformLocations[rest[j].0], rest[j].1)
      {
        assert tail[j - 1] == rest[j];
        assert s.gl.trace[|g1.trace| + (j - 1)] == Write(p.uniformLocations[tail[j - 1].0], tail[j - 1].1);
      }
      assert s.gl.trace[|g.trace|] == g1.trace[|g.trace|];
      s
  }

  /** Entries that can all be written name only uniforms of the table. */
  lemma WritableNamesKnown(p: ShaderProgram, values: Values)
    ensures (forall j :: 0 <= j < |values| ==> Writable(p, values[j])) ==> Names(values) <= p.uniformLocations.Keys
  {
  }

  /**
   * ShaderProgram.setUniforms: makes the program current, then writes the
   * values in order. It succeeds exactly when every name is in the table
   * and every matrix uniform is given an array; otherwise it fails at the
   * first entry that is not, and the writes for the entries before it have
   * been issued: the call is not atomic.
   */
  function SetUniforms(p: ShaderProgram, values: Values, g: Gl): (s: Step<()>)
    ensures var k := FirstFailing(values, WritableIn(p));
            && s.gl.live == g.live && s.gl.next == g.next
            && s.gl.arrayBuffer == g.arrayBuffer && s.gl.bufferData == g.bufferData
            && s.gl.currentProgram == Some(p.program)
            && |s.gl.trace| == |g.trace| + 1 + k
            && s.gl.trace[..|g.trace|] == g.trace
            && s.gl.trace[|g.trace|] == UseProgram(p.program)
            && (forall j :: 0 <= j < k ==> s.gl.trace[|g.trace| + 1 + j] == Write(p.uniformLocations[values[j].0], values[j].1))
            && s.result == (if k == |values| then Ok(()) else Err(Rejection(p, values[k])))
    ensures s.result.Ok? <==> forall j :: 0 <= j < |values| ==> Writable(p, values[j])
    ensures s.result.Ok? ==> Names(values) <= p.uniformLocations.Keys
  {
    var g1 := Use(g, p.program);
    assert |g1.trace| == |g.trace| + 1 && g1.trace[|g.trace|] == UseProgram(p.program);
    NoneFailingIff(values, WritableIn(p));
    WritableNamesKnown(p, values);
    WriteUniforms(p, values, g1)
  }

  /**
   * A matrix uniform given a number or a vector fails with nothing written
   * after the program is made current, as the TypeError from
   * `uniformMatrix*fv` would leave it.
   */
  lemma MatrixWithoutArrayRejected(p: ShaderProgram, name: string, value: Value, g: Gl)
    requires name in p.uniformLocations && IsMatrixType(p.uniformLocations[name].kind)
    requires !value.Matrix?
    ensures var s := SetUniforms(p, [(name, value)], g);
            && s.result == Err(MatrixArrayMissing(name))
            && s.gl.trace == g.trace + [UseProgram(p.program)]
  {
  }

  // ---------------------------------------------------------------- ShaderCanvasContext

  /** The rendering surface: the quad buffer and at most one installed program. */
  datatype CanvasContext = CanvasContext(positionBuffer: Handle, shaderProgram: Option<ShaderProgram>)

  /** The quad's corners (1, 1), (-1, 1), (1, -1), (-1, -1), two floats each, in triangle-strip order. */
  const QuadPositions: seq<real> := [1.0, 1.0, -1.0, 1.0, 1.0, -1.0, -1.0, -1.0]

  /**
   * The ShaderCanvasContext constructor, given what `getContext("webgl")`
   * returned. Without a context it fails. Otherwise it creates one buffer,
   * binds it and fills it with the quad, and installs no program.
   */
  function NewCanvasContext(context: Option<Gl>): (r: Result<(CanvasContext, Gl), Error>)
    ensures context.None? ==> r == Err(ContextUnavailable)
    ensures context.Some? ==>
              && r.Ok?
              && var ctx := r.value.0;
                 var g := r.value.1;
                 var g0 := context.value;
                 && ctx.shaderProgram == None
                 && ctx.positionBuffer !in g0.live
                 && g.live == g0.live + {ctx.positionBuffer}
                 && g.arrayBuffer == Some(ctx.positionBuffer)
                 && g.bufferData == g0.bufferData[ctx.positionBuffer := QuadPositions]
                 && g.currentProgram == g0.currentProgram
                 && g.trace == g0.trace + [CreateBuffer(ctx.positionBuffer), BindArrayBuffer(ctx.positionBuffer),
                                           BufferStaticData(QuadPositions)]
  {
    match context
    case None => Err(ContextUnavailable)
    case Some(g) =>
      var buffer := g.next;
      var filled := Upload(BindArray(Issue(Allocate(g), CreateBuffer(buffer)), buffer), QuadPositions);
      Ok((CanvasContext(buffer, None), filled))
  }

  /**
   * setShader: destroys the installed program, if there is one, then
   * installs the new one. The context's buffer is untouched.
   */
  function SetShader(ctx: CanvasContext, p: ShaderProgram, g: Gl): (r: (CanvasContext, Gl))
    ensures r.0 == ctx.(shaderProgram := Some(p))
    ensures ctx.shaderProgram.None? ==> r.1 == g
    ensures ctx.shaderProgram.Some? ==>
              var prev := ctx.shaderProgram.value;
              && r.1.live == g.live - Handles(prev)
              && r.1.trace == g.trace + DestroyCalls(prev)
              && SameBindings(g, r.1)
  {
    var g1 := if ctx.shaderProgram.Some? then Destroy(ctx.shaderProgram.value, g) else g;
    (ctx.(shaderProgram := Some(p)), g1)
  }

  /**
   * Replacing an installed program deletes it, and each of its two shaders,
   * exactly once, leaves the new program's objects live, and installs the
   * new program.
   */
  lemma ReplacingReleasesPreviousOnce(ctx: CanvasContext, prev: ShaderProgram, p: ShaderProgram, g: Gl)
    requires ctx.shaderProgram == Some(prev)
    requires Handles(p) <= g.live && Handles(p) !! Handles(prev)
    ensures var r := SetShader(ctx, p, g);
            var deleted := multiset(r.1.trace[|g.trace|..]);
            && r.0.shaderProgram == Some(p)
            && deleted[DeleteProgram(prev.program)] == 1
            && (prev.vertexShader != prev.fragmentShader ==>
                  deleted[DeleteShader(prev.vertexShader)] == 1 && deleted[DeleteShader(prev.fragmentShader)] == 1)
            && Handles(prev) !! r.1.live
            && Handles(p) <= r.1.live
  {
    var r := SetShader(ctx, p, g);
    assert r.1.trace[|g.trace|..] == DestroyCalls(prev);
  }

  /**
   * Installing the program that is already installed destroys it and keeps
   * it installed: the context then holds a program whose objects are deleted.
   */
  lemma ReinstallingLeavesDeletedProgram(ctx: CanvasContext, p: ShaderProgram, g: Gl)
    requires ctx.shaderProgram == Some(p)
    ensures var r := SetShader(ctx, p, g);
            && r.0.shaderProgram == Some(p)
            && Handles(p) !! r.1.live
  {
  }

  /**
   * render: sets the viewport to the canvas and the clear colour to opaque
   * black. With no program installed that is all: nothing is cleared or
   * drawn. With a program it makes the program current, binds the quad
   * buffer, points the position attribute at it (2 floats per vertex, not
   * normalized, tightly packed) and draws the 4-vertex triangle strip.
   */
  function Render(ctx: CanvasContext, width: nat, height: nat, g: Gl): (r: Gl)
    ensures r.live == g.live && r.next == g.next && r.bufferData == g.bufferData
    ensures ctx.shaderProgram.None? ==>
              r == g.(trace := g.trace + [Viewport(0, 0, width, height), ClearColor(0.0, 0.0, 0.0, 1.0)])
    ensures ctx.shaderProgram.Some? ==>
              var p := ctx.shaderProgram.value;
              && r.currentProgram == Some(p.program)
              && r.arrayBuffer == Some(ctx.positionBuffer)
              && r.trace == g.trace + [Viewport(0, 0, width, height), ClearColor(0.0, 0.0, 0.0, 1.0),
                                       UseProgram(p.program), BindArrayBuffer(ctx.positionBuffer),
                                       VertexAttribPointer(p.vertexPosition, 2, GlFloat, false, 0, 0),
                                       EnableVertexAttribArray(p.vertexPosition),
                                       DrawArrays(GlTriangleStrip, 0, 4)]
  {
    var cleared := Issue(Issue(g, Viewport(0, 0, width, height)), ClearColor(0.0, 0.0, 0.0, 1.0));
    match ctx.shaderProgram
    case None => cleared
    case Some(p) =>
      var bound := BindArray(Use(cleared, p.program), ctx.positionBuffer);
      var pointed := Issue(bound, VertexAttribPointer(p.vertexPosition, 2, GlFloat, false, 0, 0));
      Issue(Issue(pointed, EnableVertexAttribArray(p.vertexPosition)), DrawArrays(GlTriangleStrip, 0, 4))
  }

  /**
   * A render with no program installed issues no draw; with one, it issues
   * exactly one draw, as its last call.
   */
  lemma RenderDrawsOnlyWithProgram(ctx: CanvasContext, width: nat, height: nat, g: Gl)
    ensures var issued := Render(ctx, width, height, g).trace[|g.trace|..];
            && (ctx.shaderProgram.None? ==> forall i :: 0 <= i < |issued| ==> !issued[i].DrawArrays?)
            && (ctx.shaderProgram.Some? ==>
                  && |issued| > 0
                  && issued[|issued| - 1] == DrawArrays(GlTriangleStrip, 0, 4)
                  && forall i :: 0 <= i < |issued| - 1 ==> !issued[i].DrawArrays?)
  {
    var issued := Render(ctx, width, height, g).trace[|g.trace|..];
    var prelude := [Viewport(0, 0, width, height), ClearColor(0.0, 0.0, 0.0, 1.0)];
    match ctx.shaderProgram
    case None =>
      assert issued == prelude;
    case Some(p) =>
      assert issued == prelude + [UseProgram(p.program), BindArrayBuffer(ctx.positionBuffer),
                                  VertexAttribPointer(p.vertexPosition, 2, GlFloat, false, 0, 0),
                                  EnableVertexAttribArray(p.vertexPosition), DrawArrays(GlTriangleStrip, 0, 4)];
  }

  /**
   * On a context whose buffer still holds the quad, the draw reads exactly
   * the floats the bound buffer holds: vertex count times components per
   * vertex.
   */
  lemma RenderCoversQuad(ctx: CanvasContext, width: nat, height: nat, g: Gl)
    requires ctx.shaderProgram.Some?
    requires ctx.positionBuffer in g.bufferData && g.bufferData[ctx.positionBuffer] == QuadPositions
    ensures var r := Render(ctx, width, height, g);
            var draw := r.trace[|r.trace| - 1];
            var pointer := r.trace[|r.trace| - 3];
            && draw.DrawArrays? && pointer.VertexAttribPointer?
            && r.arrayBuffer == Some(ctx.positionBuffer)
            && draw.count * pointer.size == |r.bufferData[ctx.positionBuffer]|
  {
  }

  /** updateUniforms: forwards to the installed program; without one it does nothing and succeeds. */
  function UpdateUniforms(ctx: CanvasContext, values: Values, g: Gl): (s: Step<()>)
    ensures ctx.shaderProgram.None? ==> s == Step(Ok(()), g)
    ensures ctx.shaderProgram.Some? ==>
              && s.gl.currentProgram == Some(ctx.shaderProgram.value.program)
              && (s.result.Ok? <==> forall j :: 0 <= j < |values| ==> Writable(ctx.shaderProgram.value, values[j]))
  {
    match ctx.shaderProgram
    case None => Step(Ok(()), g)
    case Some(p) => SetUniforms(p, values, g)
  }

  /** ShaderCanvasContext.destroy: destroys the installed program, if any, and deletes the quad buffer. */
  function DestroyContext(ctx: CanvasContext, g: Gl): (r: Gl)
    ensures ctx.shaderProgram.None? ==> r.live == g.live - {ctx.positionBuffer}
    ensures ctx.shaderProgram.Some? ==> r.live == g.live - Handles(ctx.shaderProgram.value) - {ctx.positionBuffer}
    ensures r.trace == g.trace + (if ctx.shaderProgram.Some? then DestroyCalls(ctx.shaderProgram.value) else [])
                       + [DeleteBuffer(ctx.positionBuffer)]
    ensures r.arrayBuffer != Some(ctx.positionBuffer)
  {
    var g1 := if ctx.shaderProgram.Some? then Destroy(ctx.shaderProgram.value, g) else g;
    ReleaseBuffer(g1, ctx.positionBuffer)
  }

  /**
   * Ownership end to end: create a context, construct a program, install it,
   * render, and destroy the context. Every object created along the way is
   * deleted at the end.
   */
  lemma LifecycleReleasesEverything(d: Driver, vs: ShaderSource, fs: ShaderSource, schema: Schema,
                                    g0: Gl, width: nat, height: nat)
    requires NewShaderProgram(d, vs, fs, schema, NewCanvasContext(Some(g0)).value.1).result.Ok?
    ensures var (ctx, g1) := NewCanvasContext(Some(g0)).value;
            var s := NewShaderProgram(d, vs, fs, schema, g1);
            var (installed, g2) := SetShader(ctx, s.result.value, s.gl);
            DestroyContext(installed, Render(installed, width, height, g2)).live == g0.live
  {
    var (ctx, g1) := NewCanvasContext(Some(g0)).value;
    var s := NewShaderProgram(d, vs, fs, schema, g1);
    assert ctx.positionBuffer !in Handles(s.result.value);
  }
}

=== FILE: webgl.dfy ===
/**
 * An abstract WebGL rendering context. Instead of pixels it keeps what the
 * shader runtime can observe or is responsible for: which object names are
 * live, which program and array buffer are bound, what each buffer holds,
 * and the sequence of state-changing calls issued so far. Query calls
 * (status and info-log reads, attribute and uniform lookups) change nothing
 * and are not recorded; their answers come from a `Driver`.
 */
module WebGl {
  import opened Wrappers

  /** The name of a shader, program or buffer object. */
  type Handle = nat

  datatype Stage = VertexStage | FragmentStage

  /**
   * A GLSL source text, represented by the interface it declares: attribute
   * and uniform names, each with its GLSL type keyword ("vec2", "mat3", ...).
   * The statements of the shader are not represented.
   */
  datatype ShaderSource = ShaderSource(attributes: map<string, string>, uniforms: map<string, string>)

  /** A uniform location; it belongs to the program it was looked up in. */
  datatype UniformLocation = UniformLocation(program: Handle, name: string)

  /**
   * A numeric argument as the caller passes it: a number, or anything else
   * (undefined, an object), which WebGL converts to NaN.
   */
  datatype Arg = Num(n: real) | NonNumeric

  /** Vertex attribute component types (gl.BYTE, gl.SHORT, gl.FLOAT). */
  datatype ComponentType = GlByte | GlShort | GlFloat

  /** Primitive assembly modes (gl.POINTS, ..., gl.TRIANGLE_FAN). */
  datatype DrawMode = GlPoints | GlLines | GlTriangles | GlTriangleStrip | GlTriangleFan

  /** The state-changing calls of the WebGL API that the runtime issues. */
  datatype Call =
    | CreateBuffer(buffer: Handle)
    | BindArrayBuffer(buffer: Handle)
    | BufferStaticData(contents: seq<real>)
    | DeleteBuffer(buffer: Handle)
    | CreateShader(stage: Stage, created: Option<Handle>)
    | SetShaderSource(shader: Handle, source: ShaderSource)
    | CompileShader(shader: Handle)
    | DeleteShader(shader: Handle)
    | CreateProgram(program: Handle)
    | AttachShader(program: Handle, shader: Handle)
    | LinkProgram(program: Handle)
    | DeleteProgram(program: Handle)
    | UseProgram(program: Handle)
    | Uniform1f(location: UniformLocation, x: Arg)
    | Uniform1i(location: UniformLocation, x: Arg)
    | Uniform2f(location: UniformLocation, x: Arg, y: Arg)
    | Uniform3f(location: UniformLocation, x: Arg, y: Arg, z: Arg)
    | Uniform4f(location: UniformLocation, x: Arg, y: Arg, z: Arg, w: Arg)
    | UniformMatrix2fv(location: UniformLocation, transpose: bool, data: seq<real>)
    | UniformMatrix3fv(location: UniformLocation, transpose: bool, data: seq<real>)
    | UniformMatrix4fv(location: UniformLocation, transpose: bool, data: seq<real>)
    | Viewport(left: int, bottom: int, width: nat, height: nat)
    | ClearColor(red: real, green: real, blue: real, alpha: real)
    | VertexAttribPointer(index: int, size: nat, componentType: ComponentType, normalized: bool, stride: nat, offset: nat)
    | EnableVertexAttribArray(index: int)
    | DrawArrays(mode: DrawMode, first: nat, count: nat)

  /**
   * The context's state. `live` holds the objects created and not yet
   * deleted; `next` is the name the next create call hands out, so names
   * are never reused.
   */
  datatype GlState = GlState(
    live: set<Handle>,
    next: Handle,
    currentProgram: Option<Handle>,
    arrayBuffer: Option<Handle>,
    bufferData: map<Handle, seq<real>>,
    trace: seq<Call>)

  predicate Valid(g: GlState)
  {
    forall h :: h in g.live ==> h < g.next
  }

  type Gl = g: GlState | Valid(g) witness GlState({}, 0, None, None, map[], [])

  /**
   * The answers of the driver behind the context: whether shader objects can
   * be created at all (they cannot once the context is lost), the info log of
   * a failed compilation or link (None when it succeeds), the location of a
   * vertex attribute (-1 when the program has no such active attribute), and
   * whether a uniform name is active in the program linked from two sources.
   */
  datatype Driver = Driver(
    canCreateShaders: bool,
    compileLog: (Stage, ShaderSource) -> Option<string>,
    linkLog: (ShaderSource, ShaderSource) -> Option<string>,
    attribLocation: (ShaderSource, ShaderSource, string) -> int,
    uniformActive: (ShaderSource, ShaderSource, string) -> bool)

  /** Records a call that changes nothing but the trace. */
  function Issue(g: Gl, c: Call): Gl
  {
    g.(trace := g.trace + [c])
  }

  /** Hands out the name `g.next` for a new object. */
  function Allocate(g: Gl): (r: Gl)
    ensures g.next !in g.live
    ensures r.live == g.live + {g.next} && r.next == g.next + 1
  {
    g.(live := g.live + {g.next}, next := g.next + 1)
  }

  /** gl.deleteShader: the shader is no longer live. */
  function ReleaseShader(g: Gl, shader: Handle): (r: Gl)
  {
    Issue(g.(live := g.live - {shader}), DeleteShader(shader))
  }

  /** gl.deleteProgram: the program is no longer live. A program still in use stays bound. */
  function ReleaseProgram(g: Gl, program: Handle): (r: Gl)
  {
    Issue(g.(live := g.live - {program}), DeleteProgram(program))
  }

  /** gl.deleteBuffer: the buffer is no longer live and is unbound if it was bound. */
  function ReleaseBuffer(g: Gl, buffer: Handle): (r: Gl)
  {
    var bound := if g.arrayBuffer == Some(buffer) then None else g.arrayBuffer;
    Issue(g.(live := g.live - {buffer}, arrayBuffer := bound), DeleteBuffer(buffer))
  }

  /** gl.useProgram. */
  function Use(g: Gl, program: Handle): (r: Gl)
  {
    Issue(g.(currentProgram := Some(program)), UseProgram(program))
  }

  /** gl.bindBuffer(gl.ARRAY_BUFFER, buffer). */
  function BindArray(g: Gl, buffer: Handle): (r: Gl)
  {
    Issue(g.(arrayBuffer := Some(buffer)), BindArrayBuffer(buffer))
  }

  /** gl.bufferData(gl.ARRAY_BUFFER, data, gl.STATIC_DRAW): replaces the contents of the bound buffer, if any. */
  function Upload(g: Gl, data: seq<real>): (r: Gl)
  {
    var contents := if g.arrayBuffer.Some? then g.bufferData[g.arrayBuffer.value := data] else g.bufferData;
    Issue(g.(bufferData := contents), BufferStaticData(data))
  }

  /** The bindings and buffer contents of two states agree; live objects and trace may differ. */
  predicate SameBindings(g: GlState, h: GlState)
  {
    g.currentProgram == h.currentProgram && g.arrayBuffer == h.arrayBuffer && g.bufferData == h.bufferData
  }
}

=== FILE: wrappers.dfy ===
/** Optional values and results that are either a value or an error. */
module Wrappers {

  datatype Option<+T> = None | Some(value: T)

  datatype Result<+T, +E> = Ok(value: T) | Err(error: E)
}
